=== FILE: README.md ===
# DATAQ Ethernet discovery replies, modelled in Dafny

After broadcasting `dataq_instruments` on UDP port 1235, `DataQDI4370Ethernet.do_udp_discovery`
collects the devices' replies. It then decodes each reply text in arrival order:

1. It searches the text for one fixed regular expression,
   `(\d{1,3}.\d{1,3}.\d{1,3}.\d{1,3}) (\w{2}:\w{2}:\w{2}:\w{2}:\w{2}:\w{2}) (\w*) ... (\w*)`,
   which has ten trailing `(\w*)` groups.
2. It copies group `i` (1 to 12) into a dict under the `i`-th of the names `IP`, `MAC`,
   `SoftwareRev`, `DeviceModel`, `ADCRunning`, `Reserved`, `LengthOfDescription`,
   `Description`, `SerialNumber`, `GroupID`, `OrderInGroup` and `Master/Slave`.
3. It appends the dict to the list of decoded messages.
4. It increments `connected_count`.

This project models that decoding and proves what it computes.

- `options.dfy` (module `Options`): the `Option` type.
- `char_class.dfy` (module `CharClass`): `\d`, `\w` and `.` as character classes.
- `text.dfy` (module `Text`): occurrences of strings in a text, and spaced runs such as
  ` f1 f2 ... fn`.
- `discovery_pattern.dfy` (module `DiscoveryPattern`) describes the pattern in two ways.
  `Accepts` is a declarative reading: the text holds, from position `s`, an IP text, a
  space, a MAC text and ten spaced word texts. `Search` is a matcher for this one
  pattern with the semantics of Python's `re.search`:
  - start positions are tried from the left;
  - at each start, the four `\d{1,3}` runs of the IP group are tried longest first,
    the last run varying fastest, which is the order the backtracking engine uses;
  - the MAC and the ten `\w*` groups are read in one way only. Each `\w*` but the last
    is followed by a space, so only its longest run can succeed. The last one could
    stop early, but nothing after it can fail, so the engine keeps its longest run.
- `pattern_properties.dfy` (module `PatternProperties`) proves `Search` correct against
  `Accepts`. A match it returns is accepted, and none starts earlier. It finds a match
  whenever one exists. Its IP split is the greedy one. Its other eleven groups are
  forced by the start and the IP text, given that the last `\w*` group reads its
  whole word run.
- `dicts.dfy` (module `Dicts`): Python's insertion-ordered `dict` as an association
  list, with `d[key]` and `d[key] = v`.
- `device_records.dfy` (module `DeviceRecords`): the twelve-field record, the field
  names, and the loop that fills the dict.
- `discovery.dfy` (module `Discovery`) defines the decoding of one reply (`Parse`), with
  a round trip from a record's text back to the record. It also defines the loop over
  all replies (`ParseReplies`).

Three points about the code as written:

- A reply that does not match leaves `result` as `None`. The first `result.group(i)` then
  raises, which ends the whole pass: no partial dict is stored, and later replies are
  not looked at. The model returns `Aborted(failedAt, connectedCount)`. In it,
  `connectedCount` counts the replies decoded before the failure; the attribute keeps
  that value after the exception. The list of decoded messages is a local variable of
  the method, so it is lost.
- The MAC group is `\w{2}` six times, so it is not restricted to hex digits: `zz:zz:...`
  is accepted.
- The dots of the IP group are unescaped, so each separator is any character except a
  newline. Octet values are not range-checked.

## Model

| member | source | states |
|---|---|---|
| DiscoveryPattern.Next | detect_device_ethernet.py:95 | the IP split tried after `L` is valid and comes one place later in backtracking order; there is none exactly after the last split `1,1,1,1` |
| DiscoveryPattern.RankOrder | detect_device_ethernet.py:95 | backtracking order puts a split first exactly when its runs are longer at the first run where the two differ; distinct splits have distinct places |
| DiscoveryPattern.WordRunEnd | detect_device_ethernet.py:97 | greedy `\w*` from `i` reads only word characters and stops where no word character follows |
| DiscoveryPattern.MatchFields | detect_device_ethernet.py:97 | the repeated ` (\w*)` either fails or reads exactly `n` groups and ends inside the text; FieldsSound, FieldsComplete and FieldsExact say which groups it reads |
| DiscoveryPattern.MatchTail | detect_device_ethernet.py:95-97 | the space, the MAC group and the ten word groups after the IP either fail or read eleven groups ending inside the text; TailSound, TailComplete and TailExact say which |
| DiscoveryPattern.FirstHit | detect_device_ethernet.py:98 | the position found is the first, from `s` on, whose attempt succeeded; every attempt before it failed |
| DiscoveryPattern.TryFrom | detect_device_ethernet.py:95-98 | a match found at `s` starts at `s`, has twelve groups and uses a valid split no earlier in backtracking order than `L` |
| DiscoveryPattern.Attempts | detect_device_ethernet.py:98 | `re.search` makes one attempt at each start position from 0 to the length of the text; PatternProperties.AttemptIff shows the attempt at `s` succeeds exactly when the pattern matches at `s` |
| DiscoveryPattern.Search | detect_device_ethernet.py:98 | a match found starts inside the text and has twelve groups |
| DiscoveryPattern.Group | detect_device_ethernet.py:106 | `result.group(i)` is the `i`-th capture group, counting from 1, for `i` from 1 to the number of groups; PatternProperties.GroupSpan locates it in the reply |
| PatternProperties.WordRunEndAt | detect_device_ethernet.py:97 | greedy `\w*` reaches the end of any word run at its start, and stops exactly there at a word boundary |
| PatternProperties.FieldsSound | detect_device_ethernet.py:97 | the runs read for ` (\w*)` repeated `n` times are word texts, each after one space; the end is just after them, and the last cannot be extended |
| PatternProperties.FieldsComplete | detect_device_ethernet.py:97 | whenever the text holds `n` spaced word runs, the repeated ` (\w*)` succeeds |
| PatternProperties.FieldsExact | detect_device_ethernet.py:97 | when the last of those runs ends at a word boundary, the repeated ` (\w*)` reads exactly those runs |
| PatternProperties.TailSound | detect_device_ethernet.py:95-97 | what the matcher reads after the IP group is a space, a MAC text and ten spaced word texts, ending at a word boundary |
| PatternProperties.TailComplete | detect_device_ethernet.py:95-97 | whenever the text holds such a tail, the matcher reads one |
| PatternProperties.TailExact | detect_device_ethernet.py:95-97 | when that tail ends at a word boundary, the matcher reads exactly it |
| PatternProperties.WorksAccepts | detect_device_ethernet.py:95-97 | a split that works at `s` yields a match accepted by the declarative reading, with the IP text read by that split, ending at a word boundary |
| PatternProperties.AcceptsWorks | detect_device_ethernet.py:95-97 | any accepted decomposition makes the split of its IP text work |
| PatternProperties.AcceptsMatch | detect_device_ethernet.py:95-97 | an accepted decomposition ending at a word boundary is exactly the match its IP split produces |
| PatternProperties.TryFromSound | detect_device_ethernet.py:95 | the attempt at `s` returns the match of the first split, in backtracking order from `L`, that works; no split between them works |
| PatternProperties.TryFromNone | detect_device_ethernet.py:95 | when the attempt at `s` fails, no split from `L` on works |
| PatternProperties.SplitForced | detect_device_ethernet.py:95 | when the IP text has non-digit separators and no digit follows it, no other split at least as long at the first run where they differ reads an IP text there, so `L` is the longest split that does |
| PatternProperties.SearchFirst | detect_device_ethernet.py:98 | the search returns the attempt at the first start position where one succeeds |
| PatternProperties.SearchNoLater | detect_device_ethernet.py:98 | if the attempt at `s` succeeds, the search succeeds at `s` or earlier |
| PatternProperties.AcceptsTries | detect_device_ethernet.py:95-98 | an accepted decomposition at `s` makes the attempt at `s` succeed |
| PatternProperties.AttemptIff | detect_device_ethernet.py:95-98 | the attempt `re.search` makes at start `s` succeeds exactly when the pattern matches at `s` |
| PatternProperties.SearchSound | detect_device_ethernet.py:95-98 | a match returned by `re.search` is accepted at its start, its IP group has the shape of its split, and it ends just after its groups at a word boundary |
| PatternProperties.SearchLeftmost | detect_device_ethernet.py:98 | no position before the returned match's start admits any match |
| PatternProperties.SearchComplete | detect_device_ethernet.py:98 | if the pattern matches at `s`, the search succeeds at `s` or earlier |
| PatternProperties.SearchNoneIff | detect_device_ethernet.py:98 | `re.search` returns `None` exactly when the pattern matches nowhere in the text |
| PatternProperties.SearchGreedy | detect_device_ethernet.py:95 | at the chosen start, no accepted IP split is longer at the first run where it differs from the returned one |
| PatternProperties.SearchFieldsForced | detect_device_ethernet.py:96-98 | at the chosen start, an accepted decomposition with the same IP text ending at a word boundary has exactly the returned groups |
| PatternProperties.SearchAtStart | detect_device_ethernet.py:98 | when the pattern matches at position 0, the search starts there with the first split that works |
| PatternProperties.SearchExact | detect_device_ethernet.py:95-98 | a text starting with a dotted-quad IP and an accepted decomposition ending at a word boundary is matched exactly as that decomposition |
| PatternProperties.AcceptsGroup | detect_device_ethernet.py:95-97 | in a match accepted at its start, group 1 is the text at the start and each later group is the text one space after the group before it |
| PatternProperties.GroupSpan | detect_device_ethernet.py:98-106 | for the match `re.search` returns, `result.group(i)` is the text of the reply starting at `result.start(i)`, for each of the twelve groups |
| Dicts.Lookup | detect_device_ethernet.py:112 | `d[key]` is missing exactly when no entry has the key, and otherwise is the value of an entry with it |
| Dicts.Store | detect_device_ethernet.py:106 | `d[key] = v` keeps the length and all keys when the key is present, and appends `(key, v)` when it is not |
| Dicts.StoreLookup | detect_device_ethernet.py:106 | after `d[key] = v`, `d[key]` is `v` |
| Dicts.StoreOther | detect_device_ethernet.py:106 | `d[key] = v` leaves every other key's value unchanged |
| Dicts.StoreUnique | detect_device_ethernet.py:102-106 | assignment keeps the dict's keys distinct |
| Dicts.LookupEntry | detect_device_ethernet.py:102-106 | in a dict with distinct keys, looking up an entry's key yields that entry's value |
| DeviceRecords.FieldNamesDistinct | detect_device_ethernet.py:99-100 | there are twelve field names, one per group, and no two are equal |
| DeviceRecords.FromGroupsFields | detect_device_ethernet.py:99-106 | a record rebuilt from its twelve fields is the same record |
| DeviceRecords.FromGroups | detect_device_ethernet.py:99-106 | the record built from twelve groups holds every group at its position; FromGroupsFields shows it is the inverse of taking a record's fields |
| DeviceRecords.Entries | detect_device_ethernet.py:99-106 | a record's dict has one entry per group; EntriesLookup shows its keys are the twelve names in order, each mapping to its field |
| DeviceRecords.EntriesLookup | detect_device_ethernet.py:99-106 | a record's dict has exactly the twelve names as keys, in order, and the `k`-th name looks up the `k`-th field |
| DeviceRecords.BuiltEntries | detect_device_ethernet.py:102-106 | a dict with distinct keys that holds the `k`-th name and the `k`-th group at each position is the record's dict, and each name looks up its group |
| DeviceRecords.BuildDecodedMessage | detect_device_ethernet.py:102-106 | the dict built has the twelve names in order, and the `k`-th name maps to group `k + 1` of the match |
| Discovery.Parse | detect_device_ethernet.py:98-106 | a reply decodes exactly when `re.search` finds a match, and the record's fields are that match's groups; ParseSomeIff, ParseSound and ParseLine relate it to the pattern itself |
| Discovery.ParseSomeIff | detect_device_ethernet.py:95-98 | a reply decodes exactly when the pattern matches somewhere in its text |
| Discovery.ParseSound | detect_device_ethernet.py:95-106 | a decoded record's fields are the groups of an accepted match at the leftmost position where any match exists, and the last field is maximal |
| Discovery.LineAccepts | detect_device_ethernet.py:95-97 | a well-formed record's fields joined by single spaces, followed by a non-word character or nothing, are accepted at position 0 |
| Discovery.ParseLine | detect_device_ethernet.py:95-106 | decoding a well-formed record's text, followed by anything not starting with a word character, gives back that record |
| Discovery.ParseReplies | detect_device_ethernet.py:86-110 | the pass completes exactly when every reply decodes, with one dict per reply in arrival order and `connected_count` equal to their number; otherwise it stops at the first reply that does not decode, with `connected_count` equal to the number decoded before it |

## Left out

- Socket setup, broadcast permission, hostname lookup and binding
  (detect_device_ethernet.py:23-42) are input and output. Port numbers and the buffer
  size play no part in decoding, so they are not kept.
- `read_messages` (detect_device_ethernet.py:50-66) is a blocking receive loop. It is not
  called by the discovery code.
- Sending the broadcast and receiving until a 3-second timeout
  (detect_device_ethernet.py:71-83) are input and output. The model starts from the
  sequence of received replies. Only the broadcast payload is kept, as a constant.
- Each received reply is a pair of sender address and payload
  (detect_device_ethernet.py:81). Decoding reads only the payload, so the model takes the
  sequence of payloads and leaves the address out.
- On Linux, receiving into a 2048-byte buffer silently truncates longer datagrams; on
  Windows the receive raises instead, and the bare `except` at detect_device_ethernet.py:82
  ends the receive loop. Neither is modelled: reply texts are taken as received.
- The UTF-8 `decode()` of each datagram (detect_device_ethernet.py:92) is not modelled.
  Replies are given as already decoded text, so the error it raises on invalid bytes is
  not modelled either.
- CharClass.IsWord and CharClass.IsDigit are ASCII only. Python's `\w` and `\d` on `str`
  also accept other Unicode letters and digits.
- Python's general regular-expression engine is not modelled; only this one pattern is
  matched.
- All printing (detect_device_ethernet.py:34, 37, 72, 89, 112-114) and the `__main__` demo
  are output only. The lookups of `DeviceModel` and `IP` in the print at line 112 cannot
  fail, by DeviceRecords.EntriesLookup.
- The `cumulative_count` dict (detect_device_ethernet.py:45) is created but never used.
- Discovery.ParseLine: the round trip is stated for text that starts with the record.
  With arbitrary text before it, the leftmost match may start in that text instead.

=== FILE: char_class.dfy ===
/** Character classes of the discovery pattern, restricted to ASCII. */
module CharClass {

  /** `\d`: an ASCII decimal digit. */
  predicate IsDigit(c: char) {
    '0' <= c <= '9'
  }

  /** `\w`: an ASCII letter, digit or underscore. */
  predicate IsWord(c: char) {
    ('a' <= c <= 'z') || ('A' <= c <= 'Z') || IsDigit(c) || c == '_'
  }

  /** `.` without the DOTALL flag: any character except a line feed. */
  predicate IsDotChar(c: char) {
    c != '\n'
  }

  /** Every character of `s` is a word character (the text of a `\w*` group). */
  predicate AllWord(s: string) {
    forall k {:trigger IsWord(s[k])} :: 0 <= k < |s| ==> IsWord(s[k])
  }

}

=== FILE: device_records.dfy ===
/** The record a discovery reply is decoded into: twelve named fields, one per
    capture group of the discovery pattern, kept in a dict in a fixed order. */
module DeviceRecords {

  import opened Options
  import opened Dicts
  import opened DiscoveryPattern

  /** One discovered device, as its reply describes it. */
  datatype DeviceRecord = DeviceRecord(
    ip: string,
    mac: string,
    softwareRev: string,
    deviceModel: string,
    adcRunning: string,
    reserved: string,
    lengthOfDescription: string,
    description: string,
    serialNumber: string,
    groupId: string,
    orderInGroup: string,
    masterSlave: string)

  /** The dict keys, in the order group 1 to group 12 is copied under them. */
  const FieldNames: seq<string> := [
    "IP", "MAC", "SoftwareRev", "DeviceModel", "ADCRunning", "Reserved",
    "LengthOfDescription", "Description", "SerialNumber", "GroupID", "OrderInGroup",
    "Master/Slave"]

  /** The twelve names are pairwise different, so each is a key of its own. */
  lemma {:induction false} FieldNamesDistinct()
    ensures |FieldNames| == GroupCount
    ensures forall i, j :: 0 <= i < j < |FieldNames| ==> FieldNames[i] != FieldNames[j]
  {
  }

  /** The fields of a record, in the order of `FieldNames`. */
  function Fields(r: DeviceRecord): (fs: seq<string>)
    ensures |fs| == GroupCount
  {
    [r.ip, r.mac, r.softwareRev, r.deviceModel, r.adcRunning, r.reserved,
     r.lengthOfDescription, r.description, r.serialNumber, r.groupId, r.orderInGroup,
     r.masterSlave]
  }

  /** The record whose `k`-th field is `g[k]`. */
  function FromGroups(g: seq<string>): (r: DeviceRecord)
    requires |g| == GroupCount
    ensures Fields(r) == g
  {
    var r := DeviceRecord(g[0], g[1], g[2], g[3], g[4], g[5], g[6], g[7], g[8], g[9], g[10], g[11]);
    assert forall k | 0 <= k < GroupCount :: Fields(r)[k] == g[k];
    r
  }

  /** Reading a record's fields back gives the record. */
  lemma {:induction false} FromGroupsFields(r: DeviceRecord)
    ensures FromGroups(Fields(r)) == r
  {
  }

  /** The dict a record is shown as: each name of `FieldNames` bound to its field. */
  function Entries(r: DeviceRecord): (d: Dict)
    ensures |d| == GroupCount
  {
    var fs := Fields(r);
    seq(GroupCount, k requires 0 <= k < GroupCount => (FieldNames[k], fs[k]))
  }

  /** Looking up the `k`-th name in a record's dict gives its `k`-th field, and the
      dict holds no other keys. */
  lemma {:induction false} EntriesLookup(r: DeviceRecord, k: nat)
    requires k < GroupCount
    ensures UniqueKeys(Entries(r))
    ensures Keys(Entries(r)) == FieldNames
    ensures Lookup(Entries(r), FieldNames[k]) == Some(Fields(r)[k])
  {
    var d := Entries(r);
    FieldNamesDistinct();
    assert forall i: nat | i < GroupCount :: KeyAt(d, i) == FieldNames[i];
    LookupEntry(d, k);
  }

  /** A dict with distinct keys holding the `k`-th name and the `k`-th group at each
      position `k` is the dict of the record built from the groups. */
  lemma {:induction false} BuiltEntries(d: Dict, g: seq<string>)
    requires |d| == |g| == GroupCount
    requires forall k :: 0 <= k < GroupCount ==> d[k] == (FieldNames[k], g[k])
    requires UniqueKeys(d)
    ensures d == Entries(FromGroups(g))
    ensures forall k :: 0 <= k < GroupCount ==> Lookup(d, FieldNames[k]) == Some(g[k])
  {
    assert d == Entries(FromGroups(g));
    forall k | 0 <= k < GroupCount
      ensures Lookup(d, FieldNames[k]) == Some(g[k])
    {
      assert KeyAt(d, k) == FieldNames[k] && d[k].1 == g[k];
      LookupEntry(d, k);
    }
  }

  /** Copies the twelve groups of a match into a fresh dict: `i` counts from 1 and
      group `i` is stored under the `i`-th name. */
  method BuildDecodedMessage(m: Match) returns (d: Dict)
    requires |m.groups| == GroupCount
    ensures d == Entries(FromGroups(m.groups))
    ensures forall k :: 0 <= k < GroupCount ==> Lookup(d, FieldNames[k]) == Some(Group(m, k + 1))
  {
    FieldNamesDistinct();
    d := [];
    var i := 0;
    while i < |FieldNames|
      invariant 0 <= i <= |FieldNames|
      invariant |d| == i
      invariant forall k :: 0 <= k < i ==> d[k] == (FieldNames[k], m.groups[k])
      invariant UniqueKeys(d)
    {
      var content := FieldNames[i];
      i := i + 1;
      assert !HasKey(d, content) by {
        forall k: nat | k < |d|
          ensures KeyAt(d, k) != content
        {
          assert KeyAt(d, k) == FieldNames[k];
        }
      }
      StoreUnique(d, content, Group(m, i));
      d := Store(d, content, Group(m, i));
    }
    BuiltEntries(d, m.groups);
  }

}

=== FILE: dicts.dfy ===
/** Python's `dict` from strings to strings, as the discovery code uses it: an
    association list kept in insertion order, where assigning to a present key
    replaces its value in place and assigning to a new key appends an entry. */
module Dicts {

  import opened Options

  type Dict = seq<(string, string)>

  /** The key of the entry at position `i`. */
  function KeyAt(d: Dict, i: nat): string
    requires i < |d|
  {
    d[i].0
  }

  /** `key` has an entry in `d`. */
  predicate HasKey(d: Dict, key: string) {
    exists i: nat {:trigger KeyAt(d, i)} :: i < |d| && KeyAt(d, i) == key
  }

  /** The keys of `d`, in insertion order. */
  function Keys(d: Dict): (ks: seq<string>)
    ensures |ks| == |d|
    ensures forall i: nat {:trigger ks[i]} :: i < |d| ==> ks[i] == KeyAt(d, i)
  {
    seq(|d|, i requires 0 <= i < |d| => KeyAt(d, i))
  }

  /** No key has two entries, as in every Python dict. */
  predicate UniqueKeys(d: Dict) {
    forall i: nat, j: nat {:trigger KeyAt(d, i), KeyAt(d, j)} :: i < j < |d| ==> KeyAt(d, i) != KeyAt(d, j)
  }

  /** A key of a non-empty dict is its first key or a key of the rest. */
  lemma {:induction false} HasKeyTail(d: Dict, key: string)
    requires |d| > 0
    ensures HasKey(d, key) <==> KeyAt(d, 0) == key || HasKey(d[1..], key)
  {
    if HasKey(d[1..], key) {
      var i: nat :| i < |d[1..]| && KeyAt(d[1..], i) == key;
      assert KeyAt(d, i + 1) == key;
    }
    if HasKey(d, key) {
      var i: nat :| i < |d| && KeyAt(d, i) == key;
      if i > 0 {
        assert KeyAt(d[1..], i - 1) == key;
      }
    }
  }

  /** `d[key]`, or `None` where Python raises `KeyError`. */
  function Lookup(d: Dict, key: string): (r: Option<string>)
    ensures r.None? <==> !HasKey(d, key)
    ensures r.Some? ==> exists i: nat {:trigger d[i]} :: i < |d| && d[i] == (key, r.value)
    decreases |d|
  {
    if |d| == 0 then None
    else if d[0].0 == key then
      assert KeyAt(d, 0) == key && d[0] == (key, d[0].1);
      Some(d[0].1)
    else
      var r := Lookup(d[1..], key);
      HasKeyTail(d, key);
      if r.Some? then
        var i: nat :| i < |d[1..]| && d[1..][i] == (key, r.value);
        assert d[i + 1] == (key, r.value);
        r
      else r
  }

  /** `d[key] = v`. */
  function Store(d: Dict, key: string, v: string): (r: Dict)
    ensures |r| == if HasKey(d, key) then |d| else |d| + 1
    ensures !HasKey(d, key) ==> r == d + [(key, v)]
    ensures forall i: nat {:trigger KeyAt(r, i)} :: i < |d| ==> KeyAt(r, i) == KeyAt(d, i)
    decreases |d|
  {
    if |d| == 0 then [(key, v)]
    else if d[0].0 == key then
      assert HasKey(d, key) by { assert KeyAt(d, 0) == key; }
      [(key, v)] + d[1..]
    else
      var rest := Store(d[1..], key, v);
      var r := [d[0]] + rest;
      HasKeyTail(d, key);
      assert forall i: nat {:trigger KeyAt(r, i)} :: 1 <= i < |d| ==> KeyAt(r, i) == KeyAt(rest, i - 1) == KeyAt(d[1..], i - 1);
      r
  }

  /** After `d[key] = v`, `d[key]` is `v`. */
  lemma {:induction false} StoreLookup(d: Dict, key: string, v: string)
    ensures Lookup(Store(d, key, v), key) == Some(v)
    decreases |d|
  {
    if |d| > 0 && d[0].0 != key {
      StoreLookup(d[1..], key, v);
      assert Store(d, key, v)[1..] == Store(d[1..], key, v);
    }
  }

  /** `d[key] = v` leaves every other key's value as it was. */
  lemma {:induction false} StoreOther(d: Dict, key: string, v: string, other: string)
    requires other != key
    ensures Lookup(Store(d, key, v), other) == Lookup(d, other)
    decreases |d|
  {
    if |d| == 0 {
      assert Store(d, key, v)[1..] == [];
    } else if d[0].0 == key {
      assert Store(d, key, v)[1..] == d[1..];
    } else {
      StoreOther(d[1..], key, v, other);
      assert Store(d, key, v)[1..] == Store(d[1..], key, v);
    }
  }

  /** `d[key] = v` keeps the keys of a dict distinct. */
  lemma {:induction false} StoreUnique(d: Dict, key: string, v: string)
    requires UniqueKeys(d)
    ensures UniqueKeys(Store(d, key, v))
  {
    var r := Store(d, key, v);
    forall i: nat, j: nat | i < j < |r|
      ensures KeyAt(r, i) != KeyAt(r, j)
    {
      if j == |d| {
        assert !HasKey(d, key) && KeyAt(r, j) == key;
        assert KeyAt(r, i) == KeyAt(d, i);
      }
    }
  }

  /** In a dict with distinct keys, looking up the key of an entry yields its value. */
  lemma {:induction false} LookupEntry(d: Dict, i: nat)
    requires UniqueKeys(d) && i < |d|
    ensures Lookup(d, KeyAt(d, i)) == Some(d[i].1)
  {
    var key := KeyAt(d, i);
    assert HasKey(d, key);
    var j: nat :| j < |d| && d[j] == (key, Lookup(d, key).value);
    assert KeyAt(d, j) == key;
  }

}

=== FILE: discovery.dfy ===
/** Decoding the replies to a discovery broadcast: each reply text is searched for
    the discovery pattern and its twelve groups are copied into a dict, in arrival
    order, while `connected_count` counts the devices found. A reply the pattern
    does not match ends the whole pass with an error. */
module Discovery {

  import opened Options
  import opened CharClass
  import opened Text
  import opened DiscoveryPattern
  import opened PatternProperties
  import opened Dicts
  import opened DeviceRecords

  /** The broadcast payload that asks every device on the network to reply. */
  const DiscoveryRequest: string := "dataq_instruments"

  /** The record a reply text decodes to: the groups of the leftmost match, or `None`
      when the pattern occurs nowhere in the text. */
  function Parse(text: string): (r: Option<DeviceRecord>)
    ensures r.Some? <==> Search(text).Some?
    ensures r.Some? ==> Fields(r.value) == Search(text).value.groups
  {
    match Search(text)
    case None => None
    case Some(m) => Some(FromGroups(m.groups))
  }

  /** A reply decodes exactly when the pattern matches somewhere in it. */
  lemma {:induction false} ParseSomeIff(text: string)
    ensures Parse(text).Some? <==> exists s: nat, g :: Accepts(text, s, g)
  {
    SearchNoneIff(text);
  }

  /** The fields of a decoded record are a match of the pattern, at the leftmost
      position where the pattern matches at all, and the last field cannot be
      extended by a word character. */
  lemma {:induction false} ParseSound(text: string)
    requires Parse(text).Some?
    ensures var m := Search(text).value;
      var g := Fields(Parse(text).value);
      && g == m.groups
      && Accepts(text, m.start, g)
      && AtWordBoundary(text, MatchEnd(m.start, g))
      && (forall s: nat, g' :: s < m.start ==> !Accepts(text, s, g'))
  {
    var m := Search(text).value;
    SearchSound(text);
    SearchLeftmost(text);
  }

  /** A record a device could send: a dotted-quad IP whose separators are not digits,
      a MAC of word characters, and ten word fields. */
  ghost predicate WellFormed(r: DeviceRecord) {
    && (exists L :: DottedQuadWith(r.ip, L))
    && IsMacToken(r.mac)
    && WordFields(Fields(r)[2..])
  }

  /** The reply text of a record: its fields joined by single spaces. */
  function Line(r: DeviceRecord): string {
    r.ip + Spaced(Fields(r)[1..])
  }

  /** The text of a record followed by a suffix not starting with a word character
      holds the record's fields as a match at position 0, ending at a word boundary,
      with a space after the IP text. */
  lemma {:induction false} LineAccepts(r: DeviceRecord, L: IpSplit, suffix: string)
    requires DottedQuadWith(r.ip, L) && IsMacToken(r.mac) && WordFields(Fields(r)[2..])
    requires |suffix| == 0 || !IsWord(suffix[0])
    ensures var t := Line(r) + suffix;
      && Accepts(t, 0, Fields(r))
      && AtWordBoundary(t, MatchEnd(0, Fields(r)))
      && L.Width() < |t| && t[L.Width()] == ' '
  {
    var t := Line(r) + suffix;
    var g := Fields(r);
    var rest := g[1..];
    assert Occurs(t, 0, Line(r));
    OccursConcat(t, 0, r.ip, Spaced(rest));
    OccursSpaced(t, |r.ip|, rest);
    assert rest[0] == r.mac && rest[1..] == g[2..];
    assert TailAt(t, |r.ip|, rest);
    assert t[|r.ip|] == ' ';
    assert MatchEnd(0, g) == |Line(r)|;
  }

  /** Decoding the text of a well-formed record, followed by anything that does not
      start with a word character, gives back that record. */
  lemma {:induction false} ParseLine(r: DeviceRecord, suffix: string)
    requires WellFormed(r)
    requires |suffix| == 0 || !IsWord(suffix[0])
    ensures Parse(Line(r) + suffix) == Some(r)
  {
    var L :| DottedQuadWith(r.ip, L);
    LineAccepts(r, L, suffix);
    SearchExact(Line(r) + suffix, Fields(r), L);
    FromGroupsFields(r);
  }

  /** How a pass over the replies ends: with one dict per reply and the device
      count, or with an error at the first reply that does not decode, after
      `connected_count` has counted the replies before it. The dicts built so far
      are lost with the error. */
  datatype SweepOutcome =
    | Completed(decoded: seq<Dict>, connectedCount: nat)
    | Aborted(failedAt: nat, connectedCount: nat)

  /** The loop over the received replies, given as their decoded payloads in arrival
      order: search each text, copy the groups into a dict, append it and count the
      device. */
  method ParseReplies(messages: seq<string>) returns (outcome: SweepOutcome)
    ensures outcome.Completed? <==> forall j :: 0 <= j < |messages| ==> Parse(messages[j]).Some?
    ensures outcome.Completed? ==>
      && outcome.connectedCount == |outcome.decoded| == |messages|
      && forall j :: 0 <= j < |messages| ==> outcome.decoded[j] == Entries(Parse(messages[j]).value)
    ensures outcome.Aborted? ==>
      && outcome.connectedCount == outcome.failedAt < |messages|
      && Parse(messages[outcome.failedAt]).None?
      && forall j :: 0 <= j < outcome.failedAt ==> Parse(messages[j]).Some?
  {
    var decoded: seq<Dict> := [];
    var connectedCount := 0;
    var k := 0;
    while k < |messages|
      invariant 0 <= k <= |messages|
      invariant connectedCount == |decoded| == k
      invariant forall j :: 0 <= j < k ==> Parse(messages[j]).Some?
      invariant forall j :: 0 <= j < k ==> decoded[j] == Entries(Parse(messages[j]).value)
    {
      var data := messages[k];
      var result := Search(data);
      if result.None? {
        assert Parse(data).None?;
        return Aborted(k, connectedCount);
      }
      ghost var previous := decoded;
      ghost var record := FromGroups(result.value.groups);
      assert Parse(data) == Some(record);
      var decodedMessage := BuildDecodedMessage(result.value);
      decoded := decoded + [decodedMessage];
      connectedCount := connectedCount + 1;
      forall j | 0 <= j <= k
        ensures Parse(messages[j]).Some?
        ensures decoded[j] == Entries(Parse(messages[j]).value)
      {
        if j == k {
          assert messages[j] == data && decoded[j] == Entries(record);
        } else {
          assert decoded[j] == previous[j];
        }
      }
      k := k + 1;
    }
    return Completed(decoded, connectedCount);
  }

}

=== FILE: discovery_pattern.dfy ===
/** The discovery-reply pattern
      (\d{1,3}.\d{1,3}.\d{1,3}.\d{1,3}) (\w{2}:\w{2}:\w{2}:\w{2}:\w{2}:\w{2}) (\w*) ... (\w*)
    with ten trailing `(\w*)` groups, searched for the way Python's `re.search` does:
    the leftmost start wins, and at that start the greedy `\d{1,3}` runs are tried
    longest first, the last run varying fastest. Only this one pattern is matched;
    no general regular-expression engine is modelled. */
module DiscoveryPattern {

  import opened Options
  import opened CharClass
  import opened Text

  /** Number of capture groups: IP, MAC and ten word fields. */
  const GroupCount: nat := 12
  /** `\w{2}:\w{2}:\w{2}:\w{2}:\w{2}:\w{2}` always spans 17 characters. */
  const MacWidth: nat := 17
  /** The `(\w*)` groups after the MAC. */
  const TrailingFieldCount: nat := 10

  /** One way of reading the IP token: the lengths of its four `\d{1,3}` runs. */
  datatype IpSplit = IpSplit(a: nat, b: nat, c: nat, d: nat) {

    predicate Valid() {
      1 <= a <= 3 && 1 <= b <= 3 && 1 <= c <= 3 && 1 <= d <= 3
    }

    /** Four runs and three one-character separators. */
    function Width(): nat {
      a + b + c + d + 3
    }

    /** Offsets, inside the token, of the three separators. */
    function Sep1(): nat { a }
    function Sep2(): nat { a + 1 + b }
    function Sep3(): nat { a + 1 + b + 1 + c }

    /** Position of this split in the order the backtracking engine tries them
        (0 for 3,3,3,3 up to 80 for 1,1,1,1). */
    function Rank(): nat
      requires Valid()
    {
      (3 - a) * 27 + (3 - b) * 9 + (3 - c) * 3 + (3 - d)
    }
  }

  /** `L` has a longer run than `L'` at the first run where they differ. */
  predicate LongerFirst(L: IpSplit, L': IpSplit) {
    || L.a > L'.a
    || (L.a == L'.a && L.b > L'.b)
    || (L.a == L'.a && L.b == L'.b && L.c > L'.c)
    || (L.a == L'.a && L.b == L'.b && L.c == L'.c && L.d > L'.d)
  }

  /** The greedy split tried first. */
  const FirstSplit: IpSplit := IpSplit(3, 3, 3, 3)

  /** Backtracking order is the lexicographic order with longer runs first. */
  lemma {:induction false} RankOrder(L: IpSplit, L': IpSplit)
    requires L.Valid() && L'.Valid()
    ensures LongerFirst(L, L') <==> L.Rank() < L'.Rank()
    ensures L.Rank() == L'.Rank() <==> L == L'
  {
  }

  /** The split the engine tries after `L`: shorten the last run that can still shrink
      and reset every later run to three digits. */
  function Next(L: IpSplit): (r: Option<IpSplit>)
    requires L.Valid()
    ensures r.Some? ==> r.value.Valid() && r.value.Rank() == L.Rank() + 1
    ensures r.None? <==> L.Rank() == 80
  {
    if L.d > 1 then Some(L.(d := L.d - 1))
    else if L.c > 1 then Some(L.(c := L.c - 1, d := 3))
    else if L.b > 1 then Some(L.(b := L.b - 1, c := 3, d := 3))
    else if L.a > 1 then Some(IpSplit(L.a - 1, 3, 3, 3))
    else None
  }

  /** Positions `lo` up to `hi` of `x` are decimal digits. */
  predicate DigitRun(x: string, lo: nat, hi: nat) {
    lo <= hi <= |x| && forall k {:trigger IsDigit(x[k])} :: lo <= k < hi ==> IsDigit(x[k])
  }

  /** `x` is the text of `\d{1,3}.\d{1,3}.\d{1,3}.\d{1,3}` read with the run lengths of `L`. */
  predicate IpTokenWith(x: string, L: IpSplit) {
    && L.Valid()
    && |x| == L.Width()
    && DigitRun(x, 0, L.Sep1()) && IsDotChar(x[L.Sep1()])
    && DigitRun(x, L.Sep1() + 1, L.Sep2()) && IsDotChar(x[L.Sep2()])
    && DigitRun(x, L.Sep2() + 1, L.Sep3()) && IsDotChar(x[L.Sep3()])
    && DigitRun(x, L.Sep3() + 1, |x|)
  }

  /** `x` reads as the IP group with split `L`, and no separator is a digit: the
      shape of a dotted quad, whose split is then determined by the text. */
  predicate DottedQuadWith(x: string, L: IpSplit) {
    && IpTokenWith(x, L)
    && !IsDigit(x[L.Sep1()]) && !IsDigit(x[L.Sep2()]) && !IsDigit(x[L.Sep3()])
  }

  /** `x` can be read as the IP group. */
  ghost predicate IsIpToken(x: string) {
    exists L :: IpTokenWith(x, L)
  }

  /** Position `k` of the MAC text: every third character is the `:` separator, the
      others are word characters. */
  predicate MacCharAt(x: string, k: nat)
    requires k < |x|
  {
    if k % 3 == 2 then x[k] == ':' else IsWord(x[k])
  }

  /** `x` is the text of `\w{2}:\w{2}:\w{2}:\w{2}:\w{2}:\w{2}`. */
  predicate IsMacToken(x: string) {
    && |x| == MacWidth
    && forall k: nat {:trigger MacCharAt(x, k)} :: k < MacWidth ==> MacCharAt(x, k)
  }

  /** From position `e`, the text holds everything after the IP group: a space, the
      MAC group, and the ten word groups each preceded by a space. */
  predicate TailAt(t: string, e: nat, rest: seq<string>) {
    && |rest| == GroupCount - 1
    && IsMacToken(rest[0])
    && WordFields(rest[1..])
    && SpacedAt(t, e, rest)
  }

  /** Declarative reading of the pattern: some path through it matches at position `s`
      of `t` with capture groups `g`. */
  ghost predicate Accepts(t: string, s: nat, g: seq<string>) {
    && |g| == GroupCount
    && IsIpToken(g[0])
    && Occurs(t, s, g[0])
    && TailAt(t, s + |g[0]|, g[1..])
  }

  /** Position just after a match at `s` with groups `g`. */
  function MatchEnd(s: nat, g: seq<string>): nat
    requires |g| > 0
  {
    s + |g[0]| + SpacedWidth(g[1..])
  }

  // ---------------------------------------------------------------------------
  // The matcher

  /** Outcome of matching part of the pattern: the groups it captured and the
      position just after it, or no match. */
  datatype Scan = NoScan | Scanned(groups: seq<string>, end: nat)

  /** End of the longest run of word characters starting at `i` (greedy `\w*`). */
  function WordRunEnd(t: string, i: nat): (j: nat)
    requires i <= |t|
    ensures i <= j <= |t|
    ensures AllWord(t[i..j])
    ensures AtWordBoundary(t, j)
    decreases |t| - i
  {
    if i < |t| && IsWord(t[i]) then WordRunEnd(t, i + 1) else i
  }

  /** Matches ` (\w*)` `n` times from position `i`; yields the groups and the end position.
      A `\w*` followed by a space can only succeed with its longest run, so no
      backtracking into these groups can change the outcome. */
  function MatchFields(t: string, i: nat, n: nat): (r: Scan)
    requires i <= |t|
    ensures r.Scanned? ==> |r.groups| == n && i <= r.end <= |t|
    decreases n
  {
    if n == 0 then Scanned([], i)
    else if i < |t| && t[i] == ' ' then
      var j := WordRunEnd(t, i + 1);
      var rest := MatchFields(t, j, n - 1);
      if rest.NoScan? then NoScan else Scanned([t[i + 1..j]] + rest.groups, rest.end)
    else NoScan
  }

  /** Matches everything after the IP group, from position `e`: a space, the MAC,
      then the ten spaced word fields. */
  function MatchTail(t: string, e: nat): (r: Scan)
    requires e <= |t|
    ensures r.Scanned? ==> |r.groups| == GroupCount - 1 && e <= r.end <= |t|
  {
    if e + 1 + MacWidth <= |t| && t[e] == ' ' && IsMacToken(t[e + 1..e + 1 + MacWidth]) then
      var fields := MatchFields(t, e + 1 + MacWidth, TrailingFieldCount);
      if fields.NoScan? then NoScan else Scanned([t[e + 1..e + 1 + MacWidth]] + fields.groups, fields.end)
    else NoScan
  }

  /** A match found by the engine: where it starts and ends, which IP split it used,
      and the twelve groups (`groups[k]` is `result.group(k + 1)`). */
  datatype Match = Match(start: nat, end: nat, split: IpSplit, groups: seq<string>)

  /** The IP group can be read with split `L` at position `s`. */
  predicate IpAt(t: string, s: nat, L: IpSplit) {
    s + L.Width() <= |t| && IpTokenWith(t[s..s + L.Width()], L)
  }

  /** The whole pattern matches at `s` when the IP group is read with split `L`. */
  predicate Works(t: string, s: nat, L: IpSplit)
    requires s <= |t|
  {
    IpAt(t, s, L) && MatchTail(t, s + L.Width()).Scanned?
  }

  /** The match starting at `s` made of the IP text `x`, read with split `L`, and the
      groups and end position of the tail. */
  function Assemble(s: nat, L: IpSplit, x: string, tail: Scan): Match
    requires tail.Scanned?
  {
    Match(s, tail.end, L, [x] + tail.groups)
  }

  /** The match at `s` when the IP group is read with a split `L` that works. */
  function MatchWith(t: string, s: nat, L: IpSplit): Match
    requires s <= |t| && Works(t, s, L)
  {
    Assemble(s, L, t[s..s + L.Width()], MatchTail(t, s + L.Width()))
  }

  /** Tries split `L` at `s`, then every split after it in backtracking order. */
  function TryFrom(t: string, s: nat, L: IpSplit): (r: Option<Match>)
    requires s <= |t| && L.Valid()
    ensures r.Some? ==> r.value.start == s && r.value.split.Valid() && L.Rank() <= r.value.split.Rank()
    ensures r.Some? ==> |r.value.groups| == GroupCount
    decreases 80 - L.Rank()
  {
    if Works(t, s, L) then Some(MatchWith(t, s, L))
    else
      match Next(L)
      case None => None
      case Some(L') => TryFrom(t, s, L')
  }

  /** The attempt at every start position `0..|t|`, in the order `re.search` tries them. */
  function Attempts(t: string): (r: seq<Option<Match>>)
    ensures |r| == |t| + 1
    ensures forall s :: 0 <= s < |r| ==> r[s] == TryFrom(t, s, FirstSplit)
  {
    seq(|t| + 1, s requires 0 <= s <= |t| => TryFrom(t, s, FirstSplit))
  }

  /** Index of the first attempt from `s` on that succeeded, or `|a|` when none did. */
  function FirstHit(a: seq<Option<Match>>, s: nat): (k: nat)
    requires s <= |a|
    ensures s <= k <= |a|
    ensures k < |a| ==> a[k].Some?
    ensures forall j :: s <= j < k ==> a[j].None?
    decreases |a| - s
  {
    if s == |a| then |a|
    else if a[s].Some? then s
    else FirstHit(a, s + 1)
  }

  /** `re.search(pattern, t)`: the match at the first start position where one exists. */
  function Search(t: string): (r: Option<Match>)
    ensures r.Some? ==> r.value.start <= |t| && |r.value.groups| == GroupCount
  {
    var a := Attempts(t);
    var k := FirstHit(a, 0);
    if k < |a| then a[k] else None
  }

  /** `result.group(i)` for `1 <= i <= 12`. */
  function Group(m: Match, i: nat): string
    requires 1 <= i <= |m.groups|
  {
    m.groups[i - 1]
  }

  /** `result.start(i)`: group 1 starts the match, and every later group starts one
      space after the end of the group before it. */
  function GroupStart(m: Match, i: nat): nat
    requires 1 <= i <= |m.groups|
  {
    if i == 1 then m.start else m.start + |m.groups[0]| + SpacedWidth(m.groups[1..i - 1]) + 1
  }

}

=== FILE: options.dfy ===
/** An optional value: a result that may be absent, such as a search that finds
    nothing, a missing dict key or a split with no successor. */
module Options {

  datatype Option<+T> = None | Some(value: T)

}

=== FILE: pattern_properties.dfy ===
/** What the discovery-pattern matcher computes, stated against the declarative
    reading `Accepts` of the pattern and proved for every input text. */
module PatternProperties {

  import opened Options
  import opened CharClass
  import opened Text
  import opened DiscoveryPattern

  // ---------------------------------------------------------------------------
  // Greedy `\w*`

  /** The greedy `\w*` from `i` reaches at least the end of any word run starting
      at `i`, and stops exactly there when no word character follows. */
  lemma {:induction false} WordRunEndAt(t: string, i: nat, stop: nat)
    requires i <= stop <= |t|
    requires AllWord(t[i..stop])
    ensures stop <= WordRunEnd(t, i)
    ensures AtWordBoundary(t, stop) ==> WordRunEnd(t, i) == stop
  {
  }

  /** A word text occurring at `p` is a word run of the text. */
  lemma {:induction false} OccursWord(t: string, p: nat, f: string)
    requires Occurs(t, p, f) && AllWord(f)
    ensures AllWord(t[p..p + |f|])
  {
  }

  // ---------------------------------------------------------------------------
  // The ten spaced word fields

  /** One step of `MatchFields`: a space, a greedy word run and the remaining fields. */
  lemma {:induction false} FieldsStep(t: string, i: nat, n: nat)
    requires i < |t| && t[i] == ' ' && n > 0
    ensures var j := WordRunEnd(t, i + 1);
      var r := MatchFields(t, j, n - 1);
      && (r.NoScan? ==> MatchFields(t, i, n).NoScan?)
      && (r.Scanned? ==> MatchFields(t, i, n) == Scanned([t[i + 1..j]] + r.groups, r.end))
  {
  }

  /** The runs `MatchFields` returns are `\w*` texts, each preceded by one space in
      the text, the end position is just after them, and the last run cannot be
      extended. */
  lemma {:induction false} FieldsSound(t: string, i: nat, n: nat)
    requires i <= |t|
    requires MatchFields(t, i, n).Scanned?
    ensures var r := MatchFields(t, i, n);
      && WordFields(r.groups)
      && SpacedAt(t, i, r.groups)
      && r.end == i + SpacedWidth(r.groups)
      && (n > 0 ==> AtWordBoundary(t, r.end))
    decreases n
  {
    if n > 0 {
      assert i < |t| && t[i] == ' ';
      var j := WordRunEnd(t, i + 1);
      FieldsSound(t, j, n - 1);
      FieldsStep(t, i, n);
      var f := t[i + 1..j];
      var rest := MatchFields(t, j, n - 1).groups;
      SpacedCons(t, i, j, f, rest);
      WordFieldsCons(f, rest);
    }
  }

  /** Whenever the text holds `|fs|` spaced word runs from `i`, `MatchFields` succeeds. */
  lemma {:induction false} FieldsComplete(t: string, i: nat, fs: seq<string>)
    requires WordFields(fs) && SpacedAt(t, i, fs) && i <= |t|
    ensures MatchFields(t, i, |fs|).Scanned?
    decreases |fs|
  {
    if |fs| > 0 {
      var stop := i + 1 + |fs[0]|;
      assert AllWord(fs[0]);
      OccursWord(t, i + 1, fs[0]);
      WordRunEndAt(t, i + 1, stop);
      var j := WordRunEnd(t, i + 1);
      FieldsStep(t, i, |fs|);
      if |fs| > 1 {
        assert SpacedAt(t, stop, fs[1..]);
        assert j == stop;
        FieldsComplete(t, stop, fs[1..]);
      } else {
        assert MatchFields(t, j, 0).Scanned?;
      }
    }
  }

  /** When no word character follows the last of some spaced word runs, the first
      run is exactly what the greedy `\w*` reads, and the others again end at that
      boundary. */
  lemma {:induction false} FieldHead(t: string, i: nat, fs: seq<string>)
    requires WordFields(fs) && SpacedAt(t, i, fs) && |fs| > 0
    requires AtWordBoundary(t, i + SpacedWidth(fs))
    ensures i < |t| && t[i] == ' '
    ensures WordRunEnd(t, i + 1) == i + 1 + |fs[0]|
    ensures t[i + 1..i + 1 + |fs[0]|] == fs[0]
    ensures SpacedAt(t, i + 1 + |fs[0]|, fs[1..]) && WordFields(fs[1..])
    ensures SpacedWidth(fs) == 1 + |fs[0]| + SpacedWidth(fs[1..])
    ensures |fs[1..]| == 0 || AtWordBoundary(t, i + 1 + |fs[0]| + SpacedWidth(fs[1..]))
  {
    assert AllWord(fs[0]);
    OccursWord(t, i + 1, fs[0]);
    if |fs| > 1 {
      assert t[i + 1 + |fs[0]|] == ' ';
    }
    WordRunEndAt(t, i + 1, i + 1 + |fs[0]|);
    HeadTail(fs);
    WordFieldsCons(fs[0], fs[1..]);
  }

  /** `MatchFields` reads one more field when a space and a maximal word run come first. */
  lemma {:induction false} FieldsCons(t: string, i: nat, f: string, rest: seq<string>, end: nat)
    requires i < |t| && t[i] == ' '
    requires WordRunEnd(t, i + 1) == i + 1 + |f| && t[i + 1..i + 1 + |f|] == f
    requires MatchFields(t, i + 1 + |f|, |rest|) == Scanned(rest, end)
    ensures MatchFields(t, i, |[f] + rest|) == Scanned([f] + rest, end)
  {
    var n := 1 + |rest|;
    assert n - 1 == |rest|;
    FieldsStep(t, i, n);
    assert MatchFields(t, WordRunEnd(t, i + 1), n - 1) == Scanned(rest, end);
  }

  /** When moreover no word character follows the last run, `MatchFields` returns
      exactly those runs. */
  lemma {:induction false} FieldsExact(t: string, i: nat, fs: seq<string>)
    requires WordFields(fs) && SpacedAt(t, i, fs) && i <= |t|
    requires |fs| == 0 || AtWordBoundary(t, i + SpacedWidth(fs))
    ensures MatchFields(t, i, |fs|) == Scanned(fs, i + SpacedWidth(fs))
    decreases |fs|
  {
    if |fs| > 0 {
      FieldHead(t, i, fs);
      FieldsExact(t, i + 1 + |fs[0]|, fs[1..]);
      FieldsCons(t, i, fs[0], fs[1..], i + 1 + |fs[0]| + SpacedWidth(fs[1..]));
      HeadTail(fs);
    }
  }

  // ---------------------------------------------------------------------------
  // Everything after the IP group

  /** `MatchTail` returns groups that the text holds after position `e` as the
      pattern's tail demands, ending just after them, at a word boundary. */
  lemma {:induction false} TailSound(t: string, e: nat)
    requires e <= |t|
    requires MatchTail(t, e).Scanned?
    ensures var r := MatchTail(t, e);
      && TailAt(t, e, r.groups)
      && r.end == e + SpacedWidth(r.groups)
      && AtWordBoundary(t, r.end)
  {
    var r := MatchTail(t, e);
    var mac := t[e + 1..e + 1 + MacWidth];
    FieldsSound(t, e + 1 + MacWidth, TrailingFieldCount);
    var fs := MatchFields(t, e + 1 + MacWidth, TrailingFieldCount).groups;
    assert r.groups == [mac] + fs;
    assert r.groups[1..] == fs;
  }

  /** Whenever the text holds the pattern's tail from `e`, `MatchTail` succeeds. */
  lemma {:induction false} TailComplete(t: string, e: nat, rest: seq<string>)
    requires TailAt(t, e, rest)
    ensures e <= |t| && MatchTail(t, e).Scanned?
  {
    assert rest[1..][0] == rest[1];
    FieldsComplete(t, e + 1 + MacWidth, rest[1..]);
  }

  /** The parts of a tail the text holds from `e`: the space, the MAC text and the
      ten spaced word runs after it. */
  lemma {:induction false} TailHead(t: string, e: nat, rest: seq<string>)
    requires TailAt(t, e, rest)
    ensures e + 1 + MacWidth <= |t| && t[e] == ' '
    ensures t[e + 1..e + 1 + MacWidth] == rest[0] && IsMacToken(rest[0])
    ensures SpacedAt(t, e + 1 + MacWidth, rest[1..]) && WordFields(rest[1..])
    ensures |rest[1..]| == TrailingFieldCount
    ensures SpacedWidth(rest) == 1 + MacWidth + SpacedWidth(rest[1..])
  {
    assert |rest[0]| == MacWidth;
  }

  /** `MatchTail` reads a space, the MAC text, then whatever `MatchFields` reads. */
  lemma {:induction false} TailCons(t: string, e: nat, rest: seq<string>, end: nat)
    requires e + 1 + MacWidth <= |t| && t[e] == ' '
    requires |rest| == 1 + TrailingFieldCount
    requires t[e + 1..e + 1 + MacWidth] == rest[0] && IsMacToken(rest[0])
    requires MatchFields(t, e + 1 + MacWidth, |rest[1..]|) == Scanned(rest[1..], end)
    ensures MatchTail(t, e) == Scanned(rest, end)
  {
    HeadTail(rest);
  }

  /** When moreover no word character follows it, `MatchTail` returns exactly
      that tail. */
  lemma {:induction false} TailExact(t: string, e: nat, rest: seq<string>)
    requires TailAt(t, e, rest)
    requires AtWordBoundary(t, e + SpacedWidth(rest))
    ensures e <= |t| && MatchTail(t, e) == Scanned(rest, e + SpacedWidth(rest))
  {
    TailHead(t, e, rest);
    FieldsExact(t, e + 1 + MacWidth, rest[1..]);
    TailCons(t, e, rest, e + 1 + MacWidth + SpacedWidth(rest[1..]));
  }

  // ---------------------------------------------------------------------------
  // One start position, splits in backtracking order

  /** Assembles the declarative reading from an IP token and the tail after it. */
  lemma {:induction false} AcceptsIntro(t: string, s: nat, L: IpSplit, x: string, e: nat, rest: seq<string>)
    requires IpTokenWith(x, L)
    requires Occurs(t, s, x)
    requires e == s + |x|
    requires TailAt(t, e, rest)
    ensures var g := [x] + rest;
      && Accepts(t, s, g)
      && g[0] == x
      && g[1..] == rest
      && MatchEnd(s, g) == e + SpacedWidth(rest)
  {
    var g := [x] + rest;
    assert g[0] == x && g[1..] == rest;
  }

  /** The IP text read with split `L` at `s`. */
  lemma {:induction false} IpAtToken(t: string, s: nat, L: IpSplit)
    requires IpAt(t, s, L)
    ensures var x := t[s..s + L.Width()];
      IpTokenWith(x, L) && Occurs(t, s, x) && |x| == L.Width()
  {
  }

  /** The IP text read with `L` at `s`, followed by a tail the pattern accepts, assembles
      into a match the declarative reading accepts. */
  lemma {:induction false} TailAccepts(t: string, s: nat, L: IpSplit, tail: Scan)
    requires IpAt(t, s, L)
    requires tail.Scanned? && TailAt(t, s + L.Width(), tail.groups)
    requires tail.end == s + L.Width() + SpacedWidth(tail.groups)
    ensures var m := Assemble(s, L, t[s..s + L.Width()], tail);
      && Accepts(t, s, m.groups)
      && IpTokenWith(m.groups[0], L)
      && m.end == MatchEnd(s, m.groups)
  {
    var x := t[s..s + L.Width()];
    IpAtToken(t, s, L);
    AcceptsIntro(t, s, L, x, s + L.Width(), tail.groups);
    assert Assemble(s, L, x, tail).groups == [x] + tail.groups;
  }

  /** A split that works yields a match the declarative reading accepts, ending
      at a word boundary just after its groups. */
  lemma {:induction false} WorksAccepts(t: string, s: nat, L: IpSplit)
    requires s <= |t| && Works(t, s, L)
    ensures var m := MatchWith(t, s, L);
      && m.start == s
      && m.split == L
      && Accepts(t, s, m.groups)
      && IpTokenWith(m.groups[0], L)
      && m.end == MatchEnd(s, m.groups)
      && AtWordBoundary(t, m.end)
  {
    TailSound(t, s + L.Width());
    TailAccepts(t, s, L, MatchTail(t, s + L.Width()));
  }

  /** The IP group and the tail of an accepted decomposition, as positions in the text. */
  lemma {:induction false} AcceptsParts(t: string, s: nat, g: seq<string>, L: IpSplit)
    requires Accepts(t, s, g) && IpTokenWith(g[0], L)
    ensures var e := s + L.Width();
      && s <= |t|
      && IpAt(t, s, L)
      && t[s..e] == g[0]
      && TailAt(t, e, g[1..])
      && MatchEnd(s, g) == e + SpacedWidth(g[1..])
  {
    var e := s + L.Width();
    assert |g[0]| == L.Width();
    assert Occurs(t, s, g[0]) && TailAt(t, s + |g[0]|, g[1..]);
    assert t[s..e] == g[0];
  }

  /** The IP group read with `L` and a tail after it make `L` work. */
  lemma {:induction false} TailWorks(t: string, s: nat, L: IpSplit, rest: seq<string>)
    requires IpAt(t, s, L) && TailAt(t, s + L.Width(), rest)
    ensures s <= |t| && Works(t, s, L)
  {
    TailComplete(t, s + L.Width(), rest);
  }

  /** The IP group read with `L` and a tail after it that ends at a word boundary are
      exactly what the matcher builds for `L`. */
  lemma {:induction false} TailMatch(t: string, s: nat, L: IpSplit, rest: seq<string>)
    requires IpAt(t, s, L) && TailAt(t, s + L.Width(), rest)
    requires AtWordBoundary(t, s + L.Width() + SpacedWidth(rest))
    ensures s <= |t| && Works(t, s, L)
    ensures MatchWith(t, s, L) == Match(s, s + L.Width() + SpacedWidth(rest), L, [t[s..s + L.Width()]] + rest)
  {
    TailExact(t, s + L.Width(), rest);
  }

  /** Any decomposition the declarative reading accepts with IP split `L` makes `L` work. */
  lemma {:induction false} AcceptsWorks(t: string, s: nat, g: seq<string>, L: IpSplit)
    requires Accepts(t, s, g) && IpTokenWith(g[0], L)
    ensures s <= |t| && Works(t, s, L)
  {
    AcceptsParts(t, s, g, L);
    TailWorks(t, s, L, g[1..]);
  }

  /** When such a decomposition ends at a word boundary, the matcher's groups are
      exactly its. */
  lemma {:induction false} AcceptsMatch(t: string, s: nat, g: seq<string>, L: IpSplit)
    requires Accepts(t, s, g) && IpTokenWith(g[0], L)
    requires AtWordBoundary(t, MatchEnd(s, g))
    ensures s <= |t| && Works(t, s, L)
    ensures MatchWith(t, s, L) == Match(s, MatchEnd(s, g), L, g)
  {
    AcceptsParts(t, s, g, L);
    TailMatch(t, s, L, g[1..]);
    HeadTail(g);
  }

  /** `TryFrom` returns the match of the first split, from `L` on in backtracking
      order, that works. */
  lemma {:induction false} TryFromSound(t: string, s: nat, L: IpSplit)
    requires s <= |t| && L.Valid()
    requires TryFrom(t, s, L).Some?
    ensures var m := TryFrom(t, s, L).value;
      && m.split.Valid()
      && L.Rank() <= m.split.Rank()
      && Works(t, s, m.split)
      && m == MatchWith(t, s, m.split)
      && (forall L': IpSplit :: L'.Valid() && L.Rank() <= L'.Rank() < m.split.Rank() ==> !Works(t, s, L'))
    decreases 80 - L.Rank()
  {
    if !Works(t, s, L) {
      var L2 := Next(L).value;
      TryFromSound(t, s, L2);
      var m := TryFrom(t, s, L).value;
      forall L': IpSplit | L'.Valid() && L.Rank() <= L'.Rank() < m.split.Rank()
        ensures !Works(t, s, L')
      {
        RankOrder(L, L');
      }
    }
  }

  /** When `TryFrom` finds nothing, no split from `L` on works. */
  lemma {:induction false} TryFromNone(t: string, s: nat, L: IpSplit)
    requires s <= |t| && L.Valid()
    requires TryFrom(t, s, L).None?
    ensures forall L': IpSplit :: L'.Valid() && L.Rank() <= L'.Rank() ==> !Works(t, s, L')
    decreases 80 - L.Rank()
  {
    if Next(L).Some? {
      TryFromNone(t, s, Next(L).value);
    }
    forall L': IpSplit | L'.Valid() && L.Rank() <= L'.Rank()
      ensures !Works(t, s, L')
    {
      RankOrder(L, L');
    }
  }

  /** Inside any of the four runs of an IP text read with `L` at `s`, the text holds
      a digit. */
  lemma {:induction false} IpDigitAt(t: string, s: nat, L: IpSplit, p: nat)
    requires IpAt(t, s, L)
    ensures (|| p < L.Sep1()
             || L.Sep1() < p < L.Sep2()
             || L.Sep2() < p < L.Sep3()
             || L.Sep3() < p < L.Width())
            ==> s + p < |t| && IsDigit(t[s + p])
  {
    var x := t[s..s + L.Width()];
    if p < L.Width() {
      assert x[p] == t[s + p];
    }
  }

  /** When the separators of the IP text read with `L` are not digits and no digit
      follows it, `L` is the longest split that reads an IP text at `s`: any other
      split at least as long as `L` at the first run where they differ reads none. */
  lemma {:induction false} SplitForced(t: string, s: nat, L: IpSplit, L': IpSplit)
    requires IpAt(t, s, L) && DottedQuadWith(t[s..s + L.Width()], L)
    requires s + L.Width() == |t| || !IsDigit(t[s + L.Width()])
    requires IpAt(t, s, L') && !LongerFirst(L, L')
    ensures L == L'
  {
    var x := t[s..s + L.Width()];
    assert x[L.Sep1()] == t[s + L.Sep1()] && x[L.Sep2()] == t[s + L.Sep2()] && x[L.Sep3()] == t[s + L.Sep3()];
    IpDigitAt(t, s, L', L.Sep1());
    assert L.a == L'.a;
    IpDigitAt(t, s, L', L.Sep2());
    assert L.b == L'.b;
    IpDigitAt(t, s, L', L.Sep3());
    assert L.c == L'.c;
    IpDigitAt(t, s, L', L.Width());
  }

  // ---------------------------------------------------------------------------
  // Start positions

  /** The search returns the attempt at the first start position where some split works. */
  lemma {:induction false} SearchFirst(t: string)
    requires Search(t).Some?
    ensures var m := Search(t).value;
      && m.start <= |t|
      && TryFrom(t, m.start, FirstSplit) == Some(m)
      && (forall s :: 0 <= s < m.start ==> TryFrom(t, s, FirstSplit).None?)
  {
    var a := Attempts(t);
    var k := FirstHit(a, 0);
    assert k < |a| && Search(t) == a[k];
    forall s | 0 <= s < k
      ensures TryFrom(t, s, FirstSplit).None?
    {
      assert a[s].None?;
    }
  }

  /** The search finds a match no later than any start position where some split works. */
  lemma {:induction false} SearchNoLater(t: string, s: nat)
    requires s <= |t|
    requires TryFrom(t, s, FirstSplit).Some?
    ensures Search(t).Some? && Search(t).value.start <= s
  {
    var a := Attempts(t);
    var k := FirstHit(a, 0);
    assert a[s].Some?;
    assert k <= s;
    assert Search(t) == a[k];
  }

  /** A match of the declarative pattern at `s` makes the search at `s` succeed. */
  lemma {:induction false} AcceptsTries(t: string, s: nat, g: seq<string>)
    requires Accepts(t, s, g)
    ensures s <= |t| && TryFrom(t, s, FirstSplit).Some?
  {
    var L :| IpTokenWith(g[0], L);
    AcceptsWorks(t, s, g, L);
    if TryFrom(t, s, FirstSplit).None? {
      TryFromNone(t, s, FirstSplit);
    }
  }

  /** The attempt at `s` succeeds exactly when the pattern matches at `s`. */
  lemma {:induction false} AttemptIff(t: string, s: nat)
    requires s <= |t|
    ensures Attempts(t)[s].Some? <==> exists g :: Accepts(t, s, g)
  {
    if Attempts(t)[s].Some? {
      TryFromSound(t, s, FirstSplit);
      var m := TryFrom(t, s, FirstSplit).value;
      WorksAccepts(t, s, m.split);
    } else {
      forall g | Accepts(t, s, g)
        ensures false
      {
        AcceptsTries(t, s, g);
      }
    }
  }

  // ---------------------------------------------------------------------------
  // re.search

  /** A match found by the search is accepted by the declarative pattern at its
      start, with the IP group read by the split it records, and it ends just
      after its groups, at a word boundary. */
  lemma {:induction false} SearchSound(t: string)
    requires Search(t).Some?
    ensures var m := Search(t).value;
      && Accepts(t, m.start, m.groups)
      && IpTokenWith(m.groups[0], m.split)
      && m.end == MatchEnd(m.start, m.groups)
      && AtWordBoundary(t, m.end)
  {
    SearchFirst(t);
    var m := Search(t).value;
    TryFromSound(t, m.start, FirstSplit);
    WorksAccepts(t, m.start, m.split);
  }

  /** No earlier start position admits any match of the pattern. */
  lemma {:induction false} SearchLeftmost(t: string)
    requires Search(t).Some?
    ensures forall s: nat, g :: s < Search(t).value.start ==> !Accepts(t, s, g)
  {
    SearchFirst(t);
    forall s: nat, g | s < Search(t).value.start
      ensures !Accepts(t, s, g)
    {
      if Accepts(t, s, g) {
        AcceptsTries(t, s, g);
      }
    }
  }

  /** If the pattern matches anywhere, the search finds a match, starting no later. */
  lemma {:induction false} SearchComplete(t: string, s: nat, g: seq<string>)
    requires Accepts(t, s, g)
    ensures Search(t).Some? && Search(t).value.start <= s
  {
    AcceptsTries(t, s, g);
    SearchNoLater(t, s);
  }

  /** The search fails exactly when the pattern matches nowhere in the text. */
  lemma {:induction false} SearchNoneIff(t: string)
    ensures Search(t).None? <==> forall s: nat, g :: !Accepts(t, s, g)
  {
    if Search(t).Some? {
      SearchSound(t);
    } else {
      forall s: nat, g
        ensures !Accepts(t, s, g)
      {
        if Accepts(t, s, g) {
          SearchComplete(t, s, g);
        }
      }
    }
  }

  /** Greedy `\d{1,3}`: among all matches at the chosen start, none reads the IP
      group with a split whose runs are longer at the first place they differ. */
  lemma {:induction false} SearchGreedy(t: string)
    requires Search(t).Some?
    ensures var m := Search(t).value;
      forall g, L :: Accepts(t, m.start, g) && IpTokenWith(g[0], L) ==> !LongerFirst(L, m.split)
  {
    SearchFirst(t);
    var m := Search(t).value;
    TryFromSound(t, m.start, FirstSplit);
    forall g, L | Accepts(t, m.start, g) && IpTokenWith(g[0], L)
      ensures !LongerFirst(L, m.split)
    {
      AcceptsWorks(t, m.start, g, L);
      RankOrder(L, m.split);
      RankOrder(FirstSplit, L);
    }
  }

  /** Once the start and the IP group are fixed, the other eleven groups are forced:
      any accepted decomposition with the same IP text that ends at a word boundary
      has exactly the search's groups. */
  lemma {:induction false} SearchFieldsForced(t: string, g: seq<string>)
    requires Search(t).Some?
    requires Accepts(t, Search(t).value.start, g)
    requires g[0] == Search(t).value.groups[0]
    requires AtWordBoundary(t, MatchEnd(Search(t).value.start, g))
    ensures g == Search(t).value.groups
  {
    var m := Search(t).value;
    SearchSound(t);
    SearchFirst(t);
    TryFromSound(t, m.start, FirstSplit);
    AcceptsMatch(t, m.start, g, m.split);
  }

  /** When the pattern matches at position 0, the search starts there, with the
      first split in backtracking order that works. */
  lemma {:induction false} SearchAtStart(t: string, g: seq<string>)
    requires Accepts(t, 0, g)
    ensures Search(t).Some?
    ensures var m := Search(t).value;
      && m.start == 0
      && m.split.Valid()
      && Works(t, 0, m.split)
      && m == MatchWith(t, 0, m.split)
      && (forall L': IpSplit :: L'.Valid() && L'.Rank() < m.split.Rank() ==> !Works(t, 0, L'))
  {
    SearchComplete(t, 0, g);
    SearchFirst(t);
    TryFromSound(t, 0, FirstSplit);
    var m := Search(t).value;
    forall L': IpSplit | L'.Valid() && L'.Rank() < m.split.Rank()
      ensures !Works(t, 0, L')
    {
      RankOrder(FirstSplit, L');
    }
  }

  /** A split that reads an IP text at position 0 and is at least as long, at the
      first run where they differ, as the dotted-quad split of an accepted
      decomposition is that split. */
  lemma {:induction false} SplitAt(t: string, g: seq<string>, L: IpSplit, L': IpSplit)
    requires Accepts(t, 0, g) && DottedQuadWith(g[0], L)
    requires L.Width() < |t| && !IsDigit(t[L.Width()])
    requires IpAt(t, 0, L') && !LongerFirst(L, L')
    ensures L == L'
  {
    AcceptsParts(t, 0, g, L);
    SplitForced(t, 0, L, L');
  }

  /** A text that starts with a dotted-quad IP, followed by a non-digit, and holds an
      accepted decomposition from there ending at a word boundary is matched by the
      search exactly as that decomposition. */
  lemma {:induction false} SearchExact(t: string, g: seq<string>, L: IpSplit)
    requires Accepts(t, 0, g) && DottedQuadWith(g[0], L)
    requires AtWordBoundary(t, MatchEnd(0, g))
    requires L.Width() < |t| && !IsDigit(t[L.Width()])
    ensures Search(t) == Some(Match(0, MatchEnd(0, g), L, g))
  {
    SearchAtStart(t, g);
    var m := Search(t).value;
    AcceptsMatch(t, 0, g, L);
    RankOrder(L, m.split);
    SplitAt(t, g, L, m.split);
  }

  /** Each group of a match accepted at its start is the text at its start. */
  lemma {:induction false} AcceptsGroup(t: string, m: Match, i: nat)
    requires Accepts(t, m.start, m.groups) && 1 <= i <= GroupCount
    ensures Occurs(t, GroupStart(m, i), Group(m, i))
  {
    var g := m.groups;
    if i > 1 {
      SpacedAtIndex(t, m.start + |g[0]|, g[1..], i - 2);
      assert g[1..][..i - 2] == g[1..i - 1] && g[1..][i - 2] == g[i - 1];
    }
  }

  /** `result.group(i)` is the text of the reply at `result.start(i)`. */
  lemma {:induction false} GroupSpan(t: string, i: nat)
    requires Search(t).Some? && 1 <= i <= GroupCount
    ensures Occurs(t, GroupStart(Search(t).value, i), Group(Search(t).value, i))
  {
    SearchSound(t);
    AcceptsGroup(t, Search(t).value, i);
  }

}

=== FILE: text.dfy ===
/** Positional facts about strings used by the matcher and its specification. */
module Text {

  import opened CharClass

  /** `w` occurs in `t` starting at position `i`. */
  predicate Occurs(t: string, i: nat, w: string) {
    i + |w| <= |t| && t[i..i + |w|] == w
  }

  /** An occurrence of `a + b` is an occurrence of `a` followed by one of `b`. */
  lemma {:induction false} OccursConcat(t: string, i: nat, a: string, b: string)
    ensures Occurs(t, i, a + b) <==> Occurs(t, i, a) && Occurs(t, i + |a|, b)
  {
    if i + |a| + |b| <= |t| {
      assert t[i..i + |a| + |b|] == t[i..i + |a|] + t[i + |a|..i + |a| + |b|];
      if t[i..i + |a| + |b|] == a + b {
        assert t[i..i + |a|] == (a + b)[..|a|] == a;
        assert t[i + |a|..i + |a| + |b|] == (a + b)[|a|..] == b;
      }
    }
  }

  /** Characters of an occurrence are the characters of the text. */
  lemma {:induction false} OccursAt(t: string, i: nat, w: string, k: nat)
    requires Occurs(t, i, w)
    requires k < |w|
    ensures t[i + k] == w[k]
  {
    assert t[i..i + |w|][k] == t[i + k];
  }

  /** A non-empty sequence is its head followed by its tail. */
  lemma {:induction false} HeadTail<T>(s: seq<T>)
    requires |s| > 0
    ensures [s[0]] + s[1..] == s
  {
  }

  /** No word character follows position `e`: a greedy `\w*` ending at `e` could not
      have gone further. */
  predicate AtWordBoundary(t: string, e: nat) {
    e >= |t| || !IsWord(t[e])
  }

  /** Every string of `fs` is a `\w*` text. */
  predicate WordFields(fs: seq<string>) {
    forall k {:trigger AllWord(fs[k])} :: 0 <= k < |fs| ==> AllWord(fs[k])
  }

  /** A sequence of word texts is a word text followed by a sequence of word texts. */
  lemma {:induction false} WordFieldsCons(f: string, rest: seq<string>)
    ensures WordFields([f] + rest) <==> AllWord(f) && WordFields(rest)
  {
    var fs := [f] + rest;
    if AllWord(f) && WordFields(rest) {
      forall k | 0 <= k < |fs|
        ensures AllWord(fs[k])
      {
        if k > 0 {
          assert fs[k] == rest[k - 1];
        }
      }
    }
    if WordFields(fs) {
      assert fs[0] == f;
      forall k | 0 <= k < |rest|
        ensures AllWord(rest[k])
      {
        assert rest[k] == fs[k + 1];
      }
    }
  }

  /** From position `i`, the text holds every string of `fs`, each preceded by one space. */
  predicate SpacedAt(t: string, i: nat, fs: seq<string>)
    decreases |fs|
  {
    |fs| == 0 || (i < |t| && t[i] == ' ' && Occurs(t, i + 1, fs[0]) && SpacedAt(t, i + 1 + |fs[0]|, fs[1..]))
  }

  /** Number of characters `SpacedAt` covers. */
  function SpacedWidth(fs: seq<string>): nat {
    if |fs| == 0 then 0 else 1 + |fs[0]| + SpacedWidth(fs[1..])
  }

  /** A space and the text `f` up to `j`, followed by the spaced strings of `rest`
      from `j`, are the spaced strings of `[f] + rest`. */
  lemma {:induction false} SpacedCons(t: string, i: nat, j: nat, f: string, rest: seq<string>)
    requires i < |t| && t[i] == ' ' && i + 1 <= j <= |t| && t[i + 1..j] == f
    requires SpacedAt(t, j, rest)
    ensures SpacedAt(t, i, [f] + rest)
    ensures SpacedWidth([f] + rest) == j - i + SpacedWidth(rest)
  {
    var fs := [f] + rest;
    assert fs[0] == f && fs[1..] == rest;
    assert Occurs(t, i + 1, f) && i + 1 + |f| == j;
  }

  /** The `k`-th string of a spaced run starts one space after the strings before it. */
  lemma {:induction false} SpacedAtIndex(t: string, i: nat, fs: seq<string>, k: nat)
    requires SpacedAt(t, i, fs) && k < |fs|
    ensures Occurs(t, i + SpacedWidth(fs[..k]) + 1, fs[k])
    decreases k
  {
    if k == 0 {
      assert fs[..0] == [];
    } else {
      SpacedAtIndex(t, i + 1 + |fs[0]|, fs[1..], k - 1);
      assert fs[..k][0] == fs[0] && fs[..k][1..] == fs[1..][..k - 1];
      assert fs[1..][k - 1] == fs[k];
    }
  }

  /** Every string of `fs` preceded by one space: the text " f0 f1 ... fn". */
  function Spaced(fs: seq<string>): string {
    if |fs| == 0 then "" else " " + fs[0] + Spaced(fs[1..])
  }

  /** `Spaced` is the text `SpacedAt` describes. */
  lemma {:induction false} OccursSpaced(t: string, i: nat, fs: seq<string>)
    requires Occurs(t, i, Spaced(fs))
    ensures SpacedAt(t, i, fs)
    ensures |Spaced(fs)| == SpacedWidth(fs)
    decreases |fs|
  {
    if |fs| > 0 {
      assert Spaced(fs) == " " + fs[0] + Spaced(fs[1..]);
      OccursConcat(t, i, " " + fs[0], Spaced(fs[1..]));
      OccursConcat(t, i, " ", fs[0]);
      OccursAt(t, i, " ", 0);
      OccursSpaced(t, i + 1 + |fs[0]|, fs[1..]);
    }
  }

}
